=== FILE: README.md ===
# PyFR null backend and progress-bar state, in Dafny

This project models two small pure cores of PyFR.

- **The null compute backend** (`pyfr/backends/dummy.py`). It allocates no
  storage and does no arithmetic, but it enforces the structural contract
  that every real backend must honour:
  - matrices, constant, sparse and MPI matrices, views and MPI views keep
    the extents they were built with;
  - `set` accepts only an array of exactly that shape;
  - a matrix bank is `nbanks` same-shaped matrices;
  - `kernel(name, ...)` finds the validator `_validate_<name>` and runs it
    before it returns an opaque kernel;
  - `mul` checks three extent equalities and the class of its output;
  - `_is_sparse` decides by tag or by density;
  - `runall` only checks that it was given null-backend queues.

  The Python class hierarchy of the file is modelled explicitly
  (`Backend.Bases`, `Backend.IsSubclass`, `Backend.IsInstance`), so each
  `isinstance` check and each inherited method is decided from the class
  declarations. Kernel validators live in an open map from kernel name to
  validator function. The null backend's own map is
  `Backend.DummyValidators`.

- **The progress bar** (`pyfr/progress_bar.py`). The model covers:
  - `to_hms`, as integer quotient and remainder;
  - `format_hms`, as zero-padded `HH:MM:SS` or the `--:--:--` placeholder;
  - `advance_to`, which clamps to the end and re-renders;
  - the part of `_render` that decides whether to redraw, how many `+`, `=`
    and space cells the bar gets, and when the remaining-time estimate is
    absent.

  Simulated times are `real`, the exact counterpart of the source's floats.
  Wall time is an input to each call.

Modules:
- `Results` (`results.dfy`) holds the Option/Result/Outcome wrappers.
- `Backend` (`backend.dfy`) is `dummy.py`.
- `Hms` (`hms.dfy`) is `to_hms` and `format_hms`, together with a parser
  for their output that serves as the formatter's inverse.
- `Progress` (`progress.dfy`) is `ProgressBar`.

The model follows `dummy.py` and `progress_bar.py` as written:
- Construction never rejects extents. `_Dummy2DBase.__init__` stores any
  `nrow`/`ncol` it is given, so there is no invalid-shape error.
- `advance_to` writes a newline on every call that reaches a non-zero end
  time, not once only (`Progress.NewlineOnEveryEndCall`). With an end time of
  zero, `_render` raises on `cu / en` before the newline is written.
- `_validate_ipadd` reads the undefined name `out`. It therefore never
  accepts, and the null backend never builds an `ipadd` kernel
  (`Backend.IpaddNeverBuilt`). No shape rule is invented for it.
- A failed kernel request is modelled as the error the code actually
  raises. This is an assertion failure, a missing attribute, an arity error
  or an undefined name, not a single "invalid operands" kind.
- `kernel` with a name that has no validator raises a NameError.
  `PyFRInvalidKernelError` is never imported in `dummy.py`, and Python
  evaluates that name before it formats the message naming the kernel. So
  the error carries the exception's name, not the kernel's
  (`Backend.UnknownNameFails`).

## Model

| member | source | states |
|---|---|---|
| Backend.Bases | pyfr/backends/dummy.py:25-60 | every direct base of a class sits strictly nearer the root, so the class hierarchy is acyclic and `issubclass` is well founded |
| Backend.SubclassesOfMatrix | pyfr/backends/dummy.py:25-39 | the only classes deriving from `_DummyMatrix` are itself and `_DummyMPIMatrix` |
| Backend.SubclassesOfBank | pyfr/backends/dummy.py:42-45 | nothing derives from `_DummyMatrixBank` but itself |
| Backend.MatrixClassCheck | pyfr/backends/dummy.py:25-39 | `isinstance(x, _DummyMatrix)` holds exactly for plain and MPI matrices |
| Backend.OutputClassCheck | pyfr/backends/dummy.py:25-53 | `isinstance(x, (_DummyMatrix, _DummyMatrixBank))` holds exactly for plain matrices, MPI matrices and banks |
| Backend.OutClassCheck | pyfr/backends/dummy.py:121 | the output-class check of `mul` accepts a kernel argument iff it is a plain or MPI matrix or a bank, and rejects constant and sparse matrices, views, MPI views and scalars |
| Backend.NullObjectClassCheck | pyfr/backends/dummy.py:25-53 | every 2-D kind the factory builds is an instance of `_Dummy2DBase` |
| Backend.QueueCheck | pyfr/backends/dummy.py:113-115 | only an object whose class is `_DummyQueue` passes `runall`'s check |
| Backend.Make | pyfr/backends/dummy.py:68-95 | each 2-D factory entry succeeds for any extents, zero and negative ones included, and builds an object of the requested kind carrying exactly the given extents and tags |
| Backend.MakeBank | pyfr/backends/dummy.py:42-45 | a bank built with `nbanks` holds `max(nbanks, 0)` members, and every member is a plain matrix with the bank's extents and tags |
| Backend.Get | pyfr/backends/dummy.py:13-14 | `get` never returns data: the null backend has no storage |
| Backend.Set | pyfr/backends/dummy.py:25-27 | `set` succeeds iff the object is a plain or MPI matrix and the array's shape is exactly `(nrow, ncol)`; on success nothing about the object changes; any other kind has no `set` at all |
| Backend.ExtentsAreFixed | pyfr/backends/dummy.py:8-22 | after any sequence of `set` calls, failed ones included, an object equals the object as constructed: same `nrow`, `ncol` and tags, and `get` still returns no data |
| Backend.SetIdempotent | pyfr/backends/dummy.py:26-27 | repeating an accepted `set` gives the same outcome and state |
| Backend.ValidateMul | pyfr/backends/dummy.py:117-121 | `mul` validation passes iff there are three arguments, all with extents, with `a.nrow == out.nrow`, `a.ncol == b.nrow` and `b.ncol == out.ncol`, and `out` is a plain matrix, MPI matrix or bank; a wrong argument count is an arity error |
| Backend.ValidateIpadd | pyfr/backends/dummy.py:123-124 | `ipadd` validation always fails; with three arguments the failure is the undefined name `out` |
| Backend.MakeKernel | pyfr/backends/dummy.py:97-108 | a name without a validator fails with the NameError of the unimported `PyFRInvalidKernelError`; otherwise a kernel is returned iff the validator passes on the exact arguments, and the validator's own error is passed on unchanged |
| Backend.MulKernelBuilt | pyfr/backends/dummy.py:97-121 | through the null backend's registry, a `mul` kernel is built iff the three extent equalities hold and the output is writable |
| Backend.MulPerturbedFails | pyfr/backends/dummy.py:117-120 | starting from a valid product of plain matrices, changing any one of the six extents (either extent of `a`, `b` or `out`) by +1 or -1 makes the `mul` kernel request fail |
| Backend.IpaddNeverBuilt | pyfr/backends/dummy.py:123-124 | the null backend never builds an `ipadd` kernel, whatever the arguments |
| Backend.UnknownNameFails | pyfr/backends/dummy.py:98-103 | any name other than `mul` and `ipadd` fails with the NameError of the unimported `PyFRInvalidKernelError`, whatever the arguments and before any validator runs |
| Backend.CountNonzero | pyfr/backends/dummy.py:86 | the non-zero count never exceeds the array's size |
| Backend.CountNonzeroExtremes | pyfr/backends/dummy.py:86 | the non-zero count is zero iff every entry is zero, and it equals the size iff no entry is zero |
| Backend.IsSparse | pyfr/backends/dummy.py:83-89 | the `sparse` tag makes the answer sparse whatever the contents; without it, the answer is sparse iff the non-zero count is below 0.33 times the size, computed over the reals |
| Backend.SparseExtremes | pyfr/backends/dummy.py:83-89 | without the tag, an all-zero array of positive size is sparse and an array with no zero entry is dense |
| Backend.RunAll | pyfr/backends/dummy.py:113-115 | `runall` succeeds iff every element is a null-backend queue; otherwise it fails with the AssertionError of the first element that is not, recording that element's position, and every element before it is one |
| Hms.Trunc | pyfr/progress_bar.py:20 | `int(delta)` rounds toward zero: the result lies within one of the argument, on the zero side |
| Hms.SplitSeconds | pyfr/progress_bar.py:20-21 | the two `divmod`s give hours, minutes and seconds that add back up to the whole seconds, with minutes and seconds in `[0, 60)` even for a negative count, and non-negative hours for a non-negative count |
| Hms.ToHms | pyfr/progress_bar.py:19-23 | `hours*3600 + minutes*60 + seconds` equals `int(delta)`, minutes and seconds lie in `[0, 60)`, and hours are non-negative for a non-negative duration |
| Hms.SplitSecondsInverse | pyfr/progress_bar.py:20-21 | splitting the seconds that any triple with minutes and seconds in `[0, 60)` stands for gives that triple back, so the split is the only one with those bounds |
| Hms.ToHmsHoursBound | pyfr/progress_bar.py:20-21 | a duration below 100 hours has fewer than 100 whole hours |
| Hms.Decimal | pyfr/progress_bar.py:27 | a numeral is non-empty and all digits; it has one digit iff the number is below 10, and two iff it is from 10 to 99; a positive number has no leading zero |
| Hms.DecimalRoundTrip | pyfr/progress_bar.py:27 | reading a printed numeral back gives the number |
| Hms.Pad2 | pyfr/progress_bar.py:27 | `{:02d}` prints at least two characters, and exactly two for a value from 0 to 99; a non-negative value prints as digits that read back as the value, with no leading zero from 10 up; a negative one prints `-` followed by digits that read back as its magnitude |
| Hms.FormatHms | pyfr/progress_bar.py:25-29 | `None` prints as `--:--:--`; a duration prints with `:` three and six characters from the end and a digit last; a duration from 0 up to (not including) 100 hours prints as exactly eight characters, digits everywhere except `:` at positions 2 and 5; a longer output does not start with `0` |
| Hms.FormatHmsRoundTrip | pyfr/progress_bar.py:25-27 | parsing what `format_hms` printed for any non-negative duration gives back exactly the hours, minutes and seconds of `to_hms(delta)`, at any number of hours, and they total `int(delta)` seconds; the parser accepts only minutes and seconds below 60 |
| Hms.PlaceholderIsNotATime | pyfr/progress_bar.py:28-29 | the placeholder parses as no duration |
| Progress.Repeat | pyfr/progress_bar.py:95 | Python's `c * k` gives `k` copies of `c` when `k` is positive and the empty string otherwise |
| Progress.Remaining | pyfr/progress_bar.py:87-91 | a remaining-time estimate exists iff the elapsed simulated time is positive |
| Progress.Render | pyfr/progress_bar.py:64-104 | the redraw is skipped iff less than `_mindelta` wall time has passed and the bar is not at its end; an end time of zero raises; only a redraw updates the last redraw time; the segment counts sum to `nbarcol - 1`; for a non-negative wall time, the elapsed field reads back as `to_hms` of that wall time; the remaining field is `--:--:--` iff elapsed simulated time is not positive; when `nbarcol >= 1`, a progressing bar with a non-negative start fills exactly `nbarcol` columns |
| Progress.Init | pyfr/progress_bar.py:37-49 | a new bar holds the given start, current and end times, zero elapsed time and the derived bar width; its first render is skipped iff less than `_mindelta` has passed and it is not already at its end; any first frame shows no remaining time |
| Progress.AdvanceTo | pyfr/progress_bar.py:51-58 | the current time becomes `min(t, stend)`, so it never passes the end and equals `t` when `t` is within it; elapsed time is that minus the start; start, end and width are unchanged; a newline follows iff `t` reaches a non-zero end; the redraw is skipped iff it is too soon and `t` is before the end |
| Progress.AdvanceProgresses | pyfr/progress_bar.py:51-53 | after any `advance_to`, the current time is within the end and `stcurr - stelap == ststrt` |
| Progress.EndIsAlwaysDrawn | pyfr/progress_bar.py:57-70 | an `advance_to` that reaches a non-zero end is never throttled and always writes the newline |
| Progress.NewlineOnEveryEndCall | pyfr/progress_bar.py:57-58 | two successive calls past the end each write a newline |
| Progress.BarFillsWidth | pyfr/progress_bar.py:79-95 | for `n >= 0`, `0 <= start <= current <= end`, `end > 0` and `elapsed = current - start`, no segment count is negative, they sum to `n`, and the bar with its `>` head is `n + 1` characters |
| Progress.SegmentBounds | pyfr/progress_bar.py:79-82 | under those conditions the truncated `+` and space counts are non-negative and together at most `n`, so the `=` count is non-negative |
| Progress.SharesBounded | pyfr/progress_bar.py:80-81 | under those conditions the untruncated `+` and space shares are non-negative and sum to at most `n` |
| Progress.AdvanceDrawsFullBar | pyfr/progress_bar.py:51-95 | when `nbarcol >= 1` and the start is non-negative and no later than both `t` and a positive end, every frame `advance_to` draws is exactly `nbarcol` wide |

## Left out

- `_DummyQueue.__lshift__` and `__mod__` (enqueue and run-now) do nothing, and `queue()` builds a queue with no state. A queue is represented only by its class, which is all `runall` inspects.
- Keyword arguments to `kernel` and to the validators are not modelled; kernel arguments are positional only.
- The `'{}' is not a valid kernel` message is never built, because the NameError comes first. It is therefore not modelled.
- `pyfr.backends.base` is not part of this model. Its classes appear only as roots of the hierarchy. A bank reports the extents it was built with, which every member shares. `get` on a bank is not modelled.
- The shared mutable default `tags=set()` is a Python aliasing artefact. Each construction here takes its own tag set.
- The initial value passed at construction is dropped, as the null backend drops it.
- Backend.IsSparse: compares the non-zero count with the exact value 33/100 of the size. The rounding of the double product `0.33 * size` is not modelled.
- Every check of the null backend is a bare `assert`: in `set` (dummy.py:27), `runall` (dummy.py:115), `_validate_mul` (dummy.py:118-121) and `_validate_ipadd` (dummy.py:124). The model assumes asserts are enabled. Under `python -O` they are removed: `set`, `mul` and `runall` then accept anything, and `ipadd`, whose whole body is the assert, builds a kernel instead of raising the NameError that `Backend.IpaddNeverBuilt` states.
- Hms.Trunc: the float argument is an exact real, so `int()` of an infinity or NaN, which raises in Python, is not modelled.
- `get_terminal_size`, `time.time()`, the `walltime` property, writes to standard error and the ANSI escapes are I/O. The terminal width, the wall time of each call and the printed width of `format(end, '.2f')` are inputs.
- Progress.Render: the percentage and the `{:.2f}` simulated times in the frame are float formatting and are not modelled. Float rounding in the share products is not modelled either, so `cu - el` equals the start time exactly.
- Progress.Render: `_mindelta` is compared as the exact real 0.1, not the nearest double.
- Simulated times are treated as floats. With plain integer times, Python 2 would use floor division in `_render`; that case is not modelled.

=== FILE: backend.dfy ===
/** The null compute backend of pyfr/backends/dummy.py.

    The backend stores no numbers and runs no arithmetic. What it does keep
    is the structural contract every real backend must meet: objects keep the
    extents they were built with, `set` accepts only an array of exactly
    that shape, a bank is `nbanks` same-shaped matrices, and `kernel` finds a
    validator by name and runs it before handing back an opaque kernel. */
module Backend {
  import opened Results

  /* ---------------------------------------------------------------------
     The class hierarchy of dummy.py
     --------------------------------------------------------------------- */

  /** The Python classes an object of this backend can be an instance of:
      the `_Dummy*` classes, the `pyfr.backends.base` classes they derive
      from (used here only as tags), `float` for scalar kernel arguments, and
      `object` at the root. */
  datatype Class =
    | PyObject | Float
    | BaseMatrix | BaseConstMatrix | BaseSparseMatrix | BaseMPIMatrix
    | BaseMatrixBank | BaseView | BaseMPIView | BaseKernel | BaseQueue
    | Dummy2DBase
    | DummyMatrix | DummyConstMatrix | DummySparseMatrix | DummyMPIMatrix
    | DummyMatrixBank | DummyView | DummyMPIView | DummyKernel | DummyQueue

  /** How far a class sits from the root; a class's bases are always nearer. */
  function Depth(c: Class): nat
  {
    match c
    case PyObject => 0
    case Dummy2DBase => 1
    case DummyMatrix | DummyConstMatrix | DummySparseMatrix | DummyView => 2
    case DummyMPIMatrix | DummyMPIView => 3
    case DummyMatrixBank | DummyKernel | DummyQueue => 1
    case _ => 0
  }

  /** The direct bases of each class, in declaration order. The base-module
      classes and `Float` are roots here: their own definitions are not part
      of this model, and no check of dummy.py asks whether they derive from
      `object` (in Python they do). */
  function Bases(c: Class): (bs: seq<Class>)
    ensures |bs| <= 2
    ensures forall i :: 0 <= i < |bs| ==> Depth(bs[i]) < Depth(c)
  {
    match c
    case Dummy2DBase => [PyObject]
    case DummyMatrix => [Dummy2DBase, BaseMatrix]
    case DummyConstMatrix => [Dummy2DBase, BaseConstMatrix]
    case DummySparseMatrix => [Dummy2DBase, BaseSparseMatrix]
    case DummyMPIMatrix => [DummyMatrix, BaseMPIMatrix]
    case DummyMatrixBank => [BaseMatrixBank]
    case DummyView => [Dummy2DBase, BaseView]
    case DummyMPIView => [DummyView, BaseMPIView]
    case DummyKernel => [BaseKernel]
    case DummyQueue => [BaseQueue]
    case _ => []
  }

  /** Python's `issubclass(c, d)`: `d` is `c` or an ancestor of `c`. */
  predicate IsSubclass(c: Class, d: Class)
    decreases Depth(c)
  {
    var bs := Bases(c);
    || c == d
    || (|bs| > 0 && IsSubclass(bs[0], d))
    || (|bs| > 1 && IsSubclass(bs[1], d))
  }

  /** Python's `isinstance(x, classes)` for an object `x` of class `c` and a
      tuple of classes. */
  predicate IsInstance(c: Class, classes: seq<Class>)
  {
    |classes| > 0 && (IsSubclass(c, classes[0]) || IsInstance(c, classes[1..]))
  }

  /* ---------------------------------------------------------------------
     Two-dimensional objects and banks
     --------------------------------------------------------------------- */

  /** The six concrete 2-D kinds the factory can build. */
  datatype Kind2D = Matrix | ConstMatrix | SparseMatrix | MPIMatrix | View | MPIView

  function ClassOf(k: Kind2D): Class
  {
    match k
    case Matrix => DummyMatrix
    case ConstMatrix => DummyConstMatrix
    case SparseMatrix => DummySparseMatrix
    case MPIMatrix => DummyMPIMatrix
    case View => DummyView
    case MPIView => DummyMPIView
  }

  /** A null 2-D object: its kind, the extents it was built with, and its
      tags. The initial value passed at construction is dropped: there is
      no storage to put it in. */
  datatype Obj2D = Obj2D(kind: Kind2D, nrow: int, ncol: int, tags: set<string>)

  /** A matrix bank: the extents it was built with and its member matrices. */
  datatype Bank = Bank(nrow: int, ncol: int, mats: seq<Obj2D>)

  /** The numpy array a caller hands to `set`, known here only by its shape
      tuple (the null backend never looks at the values). */
  datatype Array = Array(shape: seq<int>)

  /** A bank is sound when every member is a plain matrix of the bank's
      extents. */
  predicate BankInvariant(b: Bank)
  {
    forall i :: 0 <= i < |b.mats| ==>
      b.mats[i].kind == Matrix && b.mats[i].nrow == b.nrow && b.mats[i].ncol == b.ncol
  }

  /** Errors the backend raises. */
  datatype Error =
    | AssertionFailed(check: string)       // a failed `assert` in a validator or `set`
    | MissingAttribute(attr: string)       // AttributeError on an argument or object
    | ArityMismatch(expected: nat, given: nat)  // TypeError: wrong argument count
    | UndefinedName(ident: string)         // NameError: a name the module never defines or imports
    | QueueAssertionFailed(index: nat)     // the AssertionError of `runall`, at this position

  /** The factory entry points `matrix`, `const_matrix`, `sparse_matrix`,
      `mpi_matrix`, `view` and `mpi_view`: each builds an object of its own
      class holding the extents and tags it was given, whatever their values. */
  function Make(kind: Kind2D, nrow: int, ncol: int, tags: set<string>): (o: Obj2D)
    ensures o.nrow == nrow && o.ncol == ncol && o.tags == tags
    ensures o.kind == kind
  {
    Obj2D(kind, nrow, ncol, tags)
  }

  /** `matrix_bank(nrow, ncol, nbanks)`: `xrange(nbanks)` plain matrices, all
      of the bank's extents; a non-positive `nbanks` gives an empty bank. */
  function MakeBank(nrow: int, ncol: int, nbanks: int, tags: set<string>): (b: Bank)
    ensures |b.mats| == if nbanks > 0 then nbanks else 0
    ensures b.nrow == nrow && b.ncol == ncol
    ensures BankInvariant(b)
    ensures forall i :: 0 <= i < |b.mats| ==> b.mats[i].tags == tags
  {
    var n := if nbanks > 0 then nbanks else 0;
    Bank(nrow, ncol, seq(n, i => Make(Matrix, nrow, ncol, tags)))
  }

  /** `get()`: a null object has no contents to read back. */
  function Get(o: Obj2D): (data: Option<seq<seq<real>>>)
    ensures data.None?
  {
    None
  }

  /** Whether objects of this kind have a `set` method: only `_DummyMatrix`
      defines one, so only it and its subclasses can be written. */
  predicate HasSet(k: Kind2D)
  {
    IsInstance(ClassOf(k), [DummyMatrix])
  }

  /** `o.set(arr)`: an AttributeError on kinds without `set`, an
      AssertionError unless `arr.shape == (nrow, ncol)`, and otherwise the
      object unchanged (there is nothing to store). */
  function Set(o: Obj2D, arr: Array): (r: Result<Obj2D, Error>)
    ensures r.Ok? <==> (o.kind == Matrix || o.kind == MPIMatrix) && arr.shape == [o.nrow, o.ncol]
    ensures r.Ok? ==> r.value == o
    ensures r.Err? && !(o.kind == Matrix || o.kind == MPIMatrix) ==> r.error == MissingAttribute("set")
  {
    MatrixClassCheck(ClassOf(o.kind));
    if !HasSet(o.kind) then Err(MissingAttribute("set"))
    else if arr.shape != [o.nrow, o.ncol] then Err(AssertionFailed("arr.shape == (nrow, ncol)"))
    else Ok(o)
  }

  /** A sequence of `set` calls, each failed one caught by the caller. */
  function SetAll(o: Obj2D, arrs: seq<Array>): Obj2D
  {
    if |arrs| == 0 then o
    else
      var next := match Set(o, arrs[0]) case Ok(o') => o' case Err(_) => o;
      SetAll(next, arrs[1..])
  }

  /** Extents and tags never change: whatever `set` calls are made, the
      object reports the extents it was built with and still yields no
      data from `get`. */
  lemma {:induction false} ExtentsAreFixed(kind: Kind2D, nrow: int, ncol: int, tags: set<string>, arrs: seq<Array>)
    ensures SetAll(Make(kind, nrow, ncol, tags), arrs) == Make(kind, nrow, ncol, tags)
    ensures SetAll(Make(kind, nrow, ncol, tags), arrs).nrow == nrow
    ensures SetAll(Make(kind, nrow, ncol, tags), arrs).ncol == ncol
    ensures Get(SetAll(Make(kind, nrow, ncol, tags), arrs)).None?
    decreases |arrs|
  {
    if |arrs| > 0 {
      ExtentsAreFixed(kind, nrow, ncol, tags, arrs[1..]);
    }
  }

  /** Repeating an accepted `set` gives the same observable state. */
  lemma SetIdempotent(o: Obj2D, arr: Array)
    requires Set(o, arr).Ok?
    ensures Set(Set(o, arr).value, arr) == Set(o, arr)
  {
  }

  /* ---------------------------------------------------------------------
     Kernel arguments, validators and the kernel registry
     --------------------------------------------------------------------- */

  /** An argument passed to `kernel(name, *args)`. */
  datatype Arg = Arr(o: Obj2D) | BankArg(b: Bank) | Scalar(x: real)

  function ArgClass(a: Arg): Class
  {
    match a
    case Arr(o) => ClassOf(o.kind)
    case BankArg(_) => DummyMatrixBank
    case Scalar(_) => Float
  }

  /** Whether the argument has `nrow` and `ncol` attributes. */
  predicate Shaped(a: Arg) { !a.Scalar? }

  function NRow(a: Arg): int
    requires Shaped(a)
  {
    match a
    case Arr(o) => o.nrow
    case BankArg(b) => b.nrow
  }

  function NCol(a: Arg): int
    requires Shaped(a)
  {
    match a
    case Arr(o) => o.ncol
    case BankArg(b) => b.ncol
  }

  /** The kinds `mul` and `ipadd` accept as their output: a plain matrix,
      an MPI matrix, or a bank. */
  predicate WritableOut(a: Arg)
  {
    a.BankArg? || (a.Arr? && (a.o.kind == Matrix || a.o.kind == MPIMatrix))
  }

  /** The check `isinstance(out, (_DummyMatrix, _DummyMatrixBank))` of
      dummy.py accepts exactly the writable outputs: plain and MPI matrices
      and banks, never a constant or sparse matrix or a view. */
  lemma OutClassCheck(a: Arg)
    ensures IsInstance(ArgClass(a), [DummyMatrix, DummyMatrixBank]) <==> WritableOut(a)
  {
    OutputClassCheck(ArgClass(a));
  }

  /** The subclasses of `_DummyMatrix` are itself and `_DummyMPIMatrix`. */
  lemma SubclassesOfMatrix(c: Class)
    ensures IsSubclass(c, DummyMatrix) <==> c == DummyMatrix || c == DummyMPIMatrix
  {
  }

  /** `_DummyMatrixBank` has no subclasses. */
  lemma SubclassesOfBank(c: Class)
    ensures IsSubclass(c, DummyMatrixBank) <==> c == DummyMatrixBank
  {
  }

  /** `isinstance(x, _DummyMatrix)` holds of plain and MPI matrices only. */
  lemma MatrixClassCheck(c: Class)
    ensures IsInstance(c, [DummyMatrix]) <==> c == DummyMatrix || c == DummyMPIMatrix
  {
  }

  /** `isinstance(x, (_DummyMatrix, _DummyMatrixBank))` adds banks to that. */
  lemma OutputClassCheck(c: Class)
    ensures IsInstance(c, [DummyMatrix, DummyMatrixBank]) <==>
      c == DummyMatrix || c == DummyMPIMatrix || c == DummyMatrixBank
  {
    SubclassesOfMatrix(c);
    SubclassesOfBank(c);
  }

  /** Every object the 2-D factory entries build derives from `_Dummy2DBase`. */
  lemma NullObjectClassCheck(k: Kind2D)
    ensures IsInstance(ClassOf(k), [Dummy2DBase])
  {
  }

  /** `_validate_mul(a, b, out)`: three arguments, each with extents, that
      agree as `a.nrow == out.nrow`, `a.ncol == b.nrow`, `b.ncol == out.ncol`,
      and an output that a matrix product may write. */
  function ValidateMul(args: seq<Arg>): (r: Outcome<Error>)
    ensures r.Pass? <==>
      && |args| == 3
      && Shaped(args[0]) && Shaped(args[1]) && Shaped(args[2])
      && NRow(args[0]) == NRow(args[2])
      && NCol(args[0]) == NRow(args[1])
      && NCol(args[1]) == NCol(args[2])
      && WritableOut(args[2])
    ensures |args| != 3 ==> r == Fail(ArityMismatch(3, |args|))
  {
    if |args| != 3 then Fail(ArityMismatch(3, |args|))
    else
      var a, b, out := args[0], args[1], args[2];
      if !Shaped(a) || !Shaped(out) then Fail(MissingAttribute("nrow"))
      else if NRow(a) != NRow(out) then Fail(AssertionFailed("a.nrow == out.nrow"))
      else if !Shaped(b) then Fail(MissingAttribute("nrow"))
      else if NCol(a) != NRow(b) then Fail(AssertionFailed("a.ncol == b.nrow"))
      else if NCol(b) != NCol(out) then Fail(AssertionFailed("b.ncol == out.ncol"))
      else
        OutClassCheck(out);
        if !IsInstance(ArgClass(out), [DummyMatrix, DummyMatrixBank])
        then Fail(AssertionFailed("isinstance(out, (_DummyMatrix, _DummyMatrixBank))"))
        else Pass
  }

  /** `_validate_ipadd(y, alpha, x)` as written: after the arguments are
      bound it reads the undefined name `out`, so it never accepts. */
  function ValidateIpadd(args: seq<Arg>): (r: Outcome<Error>)
    ensures r.Fail?
    ensures |args| == 3 ==> r.error == UndefinedName("out")
  {
    if |args| != 3 then Fail(ArityMismatch(3, |args|))
    else Fail(UndefinedName("out"))
  }

  /** A validator takes the kernel's positional arguments. */
  type Validator = seq<Arg> -> Outcome<Error>

  /** The validators the null backend defines, keyed by the suffix after
      `_validate_`. A backend that defines more simply has a larger map. */
  function DummyValidators(): map<string, Validator>
  {
    map["mul" := ValidateMul, "ipadd" := ValidateIpadd]
  }

  /** The exception class `kernel` raises for an unknown name. */
  const InvalidKernelError: string := "PyFRInvalidKernelError"

  /** The opaque kernel the null backend returns. */
  datatype Kernel = DummyKernelObj

  /** `kernel(name, *args)`: when no validator is registered under `name`,
      the `raise` evaluates `PyFRInvalidKernelError`, a name dummy.py never
      imports, so the call fails with that NameError before the message
      naming the kernel is built; otherwise runs the validator on the
      exact arguments, passes its failure on unchanged, and only when it
      passes returns a kernel. */
  function MakeKernel(validators: map<string, Validator>, name: string, args: seq<Arg>): (r: Result<Kernel, Error>)
    ensures name !in validators ==> r == Err(UndefinedName(InvalidKernelError))
    ensures name in validators ==> (r.Ok? <==> validators[name](args).Pass?)
    ensures name in validators && r.Err? ==> r.error == validators[name](args).error
  {
    if name !in validators then Err(UndefinedName(InvalidKernelError))
    else
      match validators[name](args)
      case Fail(e) => Err(e)
      case Pass => Ok(DummyKernelObj)
  }

  /** A `mul` kernel of the null backend is built exactly when the operands
      meet the product's shape rules and the output is writable. */
  lemma MulKernelBuilt(a: Arg, b: Arg, out: Arg)
    requires Shaped(a) && Shaped(b) && Shaped(out)
    ensures MakeKernel(DummyValidators(), "mul", [a, b, out]).Ok? <==>
      NRow(a) == NRow(out) && NCol(a) == NRow(b) && NCol(b) == NCol(out) && WritableOut(out)
  {
  }

  /** Perturbing any one extent of a valid product by one makes the kernel
      request fail. */
  lemma MulPerturbedFails(m: int, k: int, n: int, d: int, which: nat, tags: set<string>)
    requires d == 1 || d == -1
    requires which < 6
    ensures
      var a := Arr(Make(Matrix, if which == 0 then m + d else m, if which == 3 then k + d else k, tags));
      var b := Arr(Make(Matrix, if which == 1 then k + d else k, if which == 4 then n + d else n, tags));
      var out := Arr(Make(Matrix, if which == 5 then m + d else m, if which == 2 then n + d else n, tags));
      MakeKernel(DummyValidators(), "mul", [a, b, out]).Err?
  {
  }

  /** The null backend never builds an `ipadd` kernel. */
  lemma IpaddNeverBuilt(args: seq<Arg>)
    ensures MakeKernel(DummyValidators(), "ipadd", args).Err?
  {
  }

  /** A name with no validator, whatever the arguments, fails with the
      NameError of the unimported exception class, before any validator runs. */
  lemma UnknownNameFails(name: string, args: seq<Arg>)
    requires name != "mul" && name != "ipadd"
    ensures MakeKernel(DummyValidators(), name, args) == Err(UndefinedName(InvalidKernelError))
  {
  }

  /* ---------------------------------------------------------------------
     The sparse-or-dense decision
     --------------------------------------------------------------------- */

  /** `np.count_nonzero` over the entries of an array. */
  function CountNonzero(entries: seq<real>): (n: nat)
    ensures n <= |entries|
  {
    if |entries| == 0 then 0
    else (if entries[0] != 0.0 then 1 else 0) + CountNonzero(entries[1..])
  }

  /** The count is zero exactly for all-zero arrays and the full size exactly
      for arrays without a zero. */
  lemma {:induction false} CountNonzeroExtremes(entries: seq<real>)
    ensures CountNonzero(entries) == 0 <==> forall i :: 0 <= i < |entries| ==> entries[i] == 0.0
    ensures CountNonzero(entries) == |entries| <==> forall i :: 0 <= i < |entries| ==> entries[i] != 0.0
    decreases |entries|
  {
    if |entries| > 0 {
      var rest := entries[1..];
      CountNonzeroExtremes(rest);
      assert forall i :: 1 <= i < |entries| ==> entries[i] == rest[i - 1];
    }
  }

  /** `_is_sparse(mat, tags)`: the `'sparse'` tag decides outright;
      otherwise fewer than 0.33 of the entries may be non-zero. The integer
      comparison is the exact form of the source's real-valued one. */
  function IsSparse(entries: seq<real>, tags: set<string>): (sparse: bool)
    ensures "sparse" in tags ==> sparse
    ensures "sparse" !in tags ==> (sparse <==> (CountNonzero(entries) as real) < 0.33 * (|entries| as real))
  {
    if "sparse" in tags then true
    else 100 * CountNonzero(entries) < 33 * |entries|
  }

  /** Without the tag, an all-zero array of positive size is sparse and an
      array without zeros is dense. */
  lemma SparseExtremes(entries: seq<real>, tags: set<string>)
    requires "sparse" !in tags
    ensures |entries| > 0 && (forall i :: 0 <= i < |entries| ==> entries[i] == 0.0) ==> IsSparse(entries, tags)
    ensures (forall i :: 0 <= i < |entries| ==> entries[i] != 0.0) ==> !IsSparse(entries, tags)
  {
    CountNonzeroExtremes(entries);
  }

  /* ---------------------------------------------------------------------
     runall
     --------------------------------------------------------------------- */

  /** Only the null backend's own queue class passes `runall`'s check. */
  lemma QueueCheck(c: Class)
    ensures IsInstance(c, [DummyQueue]) <==> c == DummyQueue
  {
  }

  /** `runall(seq)`: each element in turn must be a null-backend queue; the
      first one that is not raises. Nothing is executed. */
  method RunAll(queues: seq<Class>) returns (r: Outcome<Error>)
    ensures r.Pass? <==> forall i :: 0 <= i < |queues| ==> IsInstance(queues[i], [DummyQueue])
    ensures r.Fail? ==> exists k :: (0 <= k < |queues| && r.error == QueueAssertionFailed(k)
      && !IsInstance(queues[k], [DummyQueue])
      && forall j :: 0 <= j < k ==> IsInstance(queues[j], [DummyQueue]))
  {
    var i := 0;
    while i < |queues|
      invariant 0 <= i <= |queues|
      invariant forall j :: 0 <= j < i ==> IsInstance(queues[j], [DummyQueue])
    {
      QueueCheck(queues[i]);
      if !IsInstance(queues[i], [DummyQueue]) {
        return Fail(QueueAssertionFailed(i));
      }
      i := i + 1;
    }
    return Pass;
  }
}

=== FILE: hms.dfy ===
/** Wall-time formatting of pyfr/progress_bar.py: `to_hms` splits a duration
    into hours, minutes and seconds, and `format_hms` prints it as
    `HH:MM:SS`, or `--:--:--` when there is no duration to show.

    A parser for that format is defined alongside, as the partner the
    formatter is checked against. */
module Hms {
  import opened Results

  /** Python's `int(x)` on a float: truncation toward zero. */
  function Trunc(x: real): (n: int)
    ensures 0.0 <= x ==> 0 <= n && n as real <= x < n as real + 1.0
    ensures x < 0.0 ==> n <= 0 && n as real - 1.0 < x <= n as real
  {
    if x >= 0.0 then x.Floor else -((-x).Floor)
  }

  datatype Hms = Hms(hours: int, minutes: int, seconds: int)

  /** The number of seconds a triple stands for. */
  function TotalSeconds(t: Hms): int
  {
    t.hours * 3600 + t.minutes * 60 + t.seconds
  }

  /** A triple whose minutes and seconds are each below sixty. */
  predicate Normal(t: Hms)
  {
    0 <= t.minutes < 60 && 0 <= t.seconds < 60
  }

  /** The two `divmod`s of `to_hms` on a whole number of seconds. Python's
      `divmod` rounds the quotient down; with the positive divisors used
      here that agrees with Dafny's `/` and `%`, so a negative count gets
      negative hours and non-negative minutes and seconds, as in Python. */
  function SplitSeconds(n: int): (t: Hms)
    ensures TotalSeconds(t) == n
    ensures Normal(t)
    ensures 0 <= n ==> 0 <= t.hours
  {
    var hours, remainder := n / 3600, n % 3600;
    Hms(hours, remainder / 60, remainder % 60)
  }

  /** `to_hms(delta)`: the split of `int(delta)`. */
  function ToHms(delta: real): (t: Hms)
    ensures TotalSeconds(t) == Trunc(delta)
    ensures Normal(t)
    ensures 0.0 <= delta ==> 0 <= t.hours
  {
    SplitSeconds(Trunc(delta))
  }

  /** The split is the only normal one: splitting the seconds a normal
      triple stands for gives that triple back. */
  lemma SplitSecondsInverse(t: Hms)
    requires Normal(t)
    ensures SplitSeconds(TotalSeconds(t)) == t
  {
  }

  /* ---------------------------------------------------------------------
     Decimal digits
     --------------------------------------------------------------------- */

  predicate IsDigit(c: char)
  {
    '0' <= c <= '9'
  }

  predicate AllDigits(s: string)
  {
    forall i :: 0 <= i < |s| ==> IsDigit(s[i])
  }

  function DigitChar(d: int): (c: char)
    requires 0 <= d < 10
    ensures IsDigit(c)
  {
    ('0' as int + d) as char
  }

  function DigitValue(c: char): int
    requires IsDigit(c)
  {
    c as int - '0' as int
  }

  /** The decimal numeral of a natural number, without leading zeros. */
  function Decimal(n: nat): (s: string)
    ensures |s| >= 1 && AllDigits(s)
    ensures n < 10 <==> |s| == 1
    ensures 10 <= n < 100 <==> |s| == 2
    ensures 1 <= n ==> s[0] != '0'
  {
    if n < 10 then [DigitChar(n)] else Decimal(n / 10) + [DigitChar(n % 10)]
  }

  /** The value of a string of digits, most significant first. */
  function ParseDecimal(s: string): nat
    requires AllDigits(s)
  {
    if |s| == 0 then 0 else 10 * ParseDecimal(s[..|s| - 1]) + DigitValue(s[|s| - 1])
  }

  /** Reading a numeral back gives the number it was printed from. */
  lemma {:induction false} DecimalRoundTrip(n: nat)
    ensures ParseDecimal(Decimal(n)) == n
    decreases n
  {
    var s := Decimal(n);
    if n >= 10 {
      DecimalRoundTrip(n / 10);
      assert s[..|s| - 1] == Decimal(n / 10);
    }
  }

  /** `'{:02d}'.format(x)`: the integer in decimal, zero-padded to two
      characters; a negative value prints its sign and needs no padding. */
  function Pad2(x: int): (s: string)
    ensures |s| >= 2
    ensures 0 <= x < 100 ==> |s| == 2
    ensures 0 <= x ==> AllDigits(s) && ParseDecimal(s) == x
    ensures 10 <= x ==> s[0] != '0'
    ensures x < 0 ==> s[0] == '-' && AllDigits(s[1..]) && ParseDecimal(s[1..]) == -x
  {
    if x < 0 then
      DecimalRoundTrip(-x);
      assert ("-" + Decimal(-x))[1..] == Decimal(-x);
      "-" + Decimal(-x)
    else if x < 10 then
      assert ParseDecimal("0") == 0;
      "0" + Decimal(x)
    else
      DecimalRoundTrip(x);
      Decimal(x)
  }

  /** What `format_hms` prints when there is no duration. */
  const Placeholder: string := "--:--:--"

  /** `format_hms(delta)`: the placeholder for `None`; otherwise the split
      of `to_hms` printed as `HH:MM:SS`, each field at least two wide. */
  function FormatHms(delta: Option<real>): (s: string)
    ensures delta.None? ==> s == Placeholder
    ensures delta.Some? ==> |s| >= 8 && s[|s| - 3] == ':' && s[|s| - 6] == ':' && IsDigit(s[|s| - 1])
    ensures delta.Some? && |s| > 8 ==> s[0] != '0'
    ensures delta.Some? && 0.0 <= delta.value < 360000.0 ==>
      && |s| == 8 && s[2] == ':' && s[5] == ':'
      && forall i :: 0 <= i < 8 && i != 2 && i != 5 ==> IsDigit(s[i])
  {
    match delta
    case None => Placeholder
    case Some(d) =>
      var t := ToHms(d);
      assert 0.0 <= d < 360000.0 ==> t.hours < 100 by {
        if 0.0 <= d < 360000.0 { ToHmsHoursBound(d); }
      }
      Pad2(t.hours) + ":" + Pad2(t.minutes) + ":" + Pad2(t.seconds)
  }

  /** Below a hundred hours the hours field needs two digits. */
  lemma ToHmsHoursBound(d: real)
    requires 0.0 <= d < 360000.0
    ensures ToHms(d).hours < 100
  {
  }

  /** The inverse of `format_hms` on durations: `H+:MM:SS` with digits in
      every field, minutes and seconds below sixty, gives the three fields;
      anything else gives nothing. */
  function ParseHms(s: string): (r: Option<Hms>)
    ensures r.Some? ==> Normal(r.value) && 0 <= r.value.hours
  {
    if |s| < 8 || s[|s| - 3] != ':' || s[|s| - 6] != ':' then None
    else
      var h, m, sec := s[..|s| - 6], s[|s| - 5..|s| - 3], s[|s| - 2..];
      if AllDigits(h) && AllDigits(m) && AllDigits(sec)
        && ParseDecimal(m) < 60 && ParseDecimal(sec) < 60
      then Some(Hms(ParseDecimal(h), ParseDecimal(m), ParseDecimal(sec)))
      else None
  }

  /** Reading back what `format_hms` printed for a non-negative duration
      gives exactly the hours, minutes and seconds of `to_hms`, which add up
      to its whole number of seconds. */
  lemma FormatHmsRoundTrip(delta: real)
    requires 0.0 <= delta
    ensures ParseHms(FormatHms(Some(delta))) == Some(ToHms(delta))
    ensures TotalSeconds(ParseHms(FormatHms(Some(delta))).value) == Trunc(delta)
  {
    var t := ToHms(delta);
    var s := FormatHms(Some(delta));
    var ph, pm, ps := Pad2(t.hours), Pad2(t.minutes), Pad2(t.seconds);
    assert s == ph + ":" + pm + ":" + ps;
    assert s[..|s| - 6] == ph;
    assert s[|s| - 5..|s| - 3] == pm;
    assert s[|s| - 2..] == ps;
  }

  /** The placeholder is not a duration. */
  lemma PlaceholderIsNotATime()
    ensures ParseHms(FormatHms(None)) == None
  {
  }
}

=== FILE: progress.dfy ===
/** The progress state of `ProgressBar` in pyfr/progress_bar.py.

    The bar tracks simulated time from a start to an end. `advance_to`
    clamps the new time to the end and re-renders; rendering is throttled to
    one redraw per `_mindelta` of wall time except at the end, and splits the
    bar into `+` (time before this run started), `=` (time covered by this
    run) and spaces (time still to go).

    Wall time and the terminal width are inputs here: the model reads no
    clock and writes no terminal. A render is described by what it would
    draw, not by the characters sent to standard error. */
module Progress {
  import opened Results
  import opened Hms

  /** Minimum wall time, in seconds, between two redraws. */
  const MinDelta: real := 0.1

  /** The bar's width: the terminal's columns less forty for the fixed text
      and twice the width of the end time printed with two decimals (that
      width is an input: float printing is not modelled). */
  function BarColumns(termCols: int, endWidth: nat): int
  {
    termCols - 40 - 2 * endWidth
  }

  /** The fields of a `ProgressBar`: simulated start, elapsed, current and end
      time, the bar width, and the wall time of the last redraw. */
  datatype State = State(
    ststrt: real, stelap: real, stcurr: real, stend: real,
    nbarcol: int, lastWallt: real)

  /** What `advance_to` maintains: the current time has not passed the end,
      and elapsed time is measured from the start. */
  predicate Progressing(s: State)
  {
    s.stcurr <= s.stend && s.stcurr - s.stelap == s.ststrt
  }

  /** The number of `+`, `=` and space characters of the bar. */
  datatype Segments = Segments(plus: int, equals: int, spaces: int)

  /** Python's `c * k` for a one-character string `c`: empty when `k <= 0`. */
  function Repeat(c: char, k: int): (s: string)
    ensures |s| == if k > 0 then k else 0
    ensures forall i :: 0 <= i < |s| ==> s[i] == c
  {
    if k <= 0 then [] else [c] + Repeat(c, k - 1)
  }

  /** The segment counts of `_render` for `n` bar cells: `+` for the share
      of the end time reached before this run, spaces for the share still
      to go (both truncated by `int`), `=` for whatever is left. */
  function BarSegments(n: int, cu: real, el: real, en: real): Segments
    requires en != 0.0
  {
    var nps := Trunc(PlusShare(n, cu, el, en));
    var nsp := Trunc(SpaceShare(n, cu, en));
    Segments(nps, n - nps - nsp, nsp)
  }

  /** `n * (cu - el) / en`: the cells for the time reached before this run. */
  function PlusShare(n: int, cu: real, el: real, en: real): real
    requires en != 0.0
  {
    n as real * (cu - el) / en
  }

  /** `n * (1 - cu / en)`: the cells for the time still to go. */
  function SpaceShare(n: int, cu: real, en: real): real
    requires en != 0.0
  {
    n as real * (1.0 - cu / en)
  }

  /** The bar as drawn between `[` and `]`. */
  function BarText(g: Segments): string
  {
    Repeat('+', g.plus) + Repeat('=', g.equals) + ">" + Repeat(' ', g.spaces)
  }

  /** What a redraw shows: the segments, the bar they make, the elapsed and
      the remaining wall time. The percentage and the two simulated times
      are float formatting and are not modelled. */
  datatype Frame = Frame(segments: Segments, bar: string, elapsed: string, remaining: string)

  /** The outcome of `_render`: nothing drawn because a redraw happened too
      recently, a frame drawn, or the ZeroDivisionError of `cu / en` when the
      end time is zero. */
  datatype Drawing = Skipped | Drawn(frame: Frame) | DivisionByZero

  datatype Rendered = Rendered(state: State, drawing: Drawing)

  /** The throttle of `_render`: too little wall time since the last redraw,
      and the bar is not at its end. */
  predicate Throttled(s: State, wallt: real)
  {
    wallt - s.lastWallt < MinDelta && s.stcurr != s.stend
  }

  /** The wall-time estimate still to go: elapsed wall time scaled by the
      simulated time left over the simulated time done, when any is done. */
  function Remaining(s: State, wallt: real): (r: Option<real>)
    ensures r.Some? <==> s.stelap > 0.0
  {
    if s.stelap > 0.0 then Some(wallt * (s.stend - s.stcurr) / s.stelap) else None
  }

  /** `_render()` at wall time `wallt` (seconds since the bar was made). */
  function Render(s: State, wallt: real): (r: Rendered)
    ensures r.drawing.Skipped? <==> Throttled(s, wallt)
    ensures r.drawing.DivisionByZero? <==> !Throttled(s, wallt) && s.stend == 0.0
    ensures r.drawing.Drawn? ==> r.state == s.(lastWallt := wallt)
    ensures !r.drawing.Drawn? ==> r.state == s
    ensures r.drawing.Drawn? ==>
      var g := r.drawing.frame.segments;
      g.plus + g.equals + g.spaces == s.nbarcol - 1
    ensures r.drawing.Drawn? && 0.0 <= wallt ==> ParseHms(r.drawing.frame.elapsed) == Some(ToHms(wallt))
    ensures r.drawing.Drawn? ==> (r.drawing.frame.remaining == Placeholder <==> s.stelap <= 0.0)
    ensures r.drawing.Drawn? && Progressing(s) && 0.0 <= s.ststrt <= s.stcurr && 1 <= s.nbarcol ==>
      |r.drawing.frame.bar| == s.nbarcol
  {
    if Throttled(s, wallt) then Rendered(s, Skipped)
    else if s.stend == 0.0 then Rendered(s, DivisionByZero)
    else
      var g := BarSegments(s.nbarcol - 1, s.stcurr, s.stelap, s.stend);
      assert Progressing(s) && 0.0 <= s.ststrt <= s.stcurr && 1 <= s.nbarcol && 0.0 < s.stend ==> |BarText(g)| == s.nbarcol by {
        if Progressing(s) && 0.0 <= s.ststrt <= s.stcurr && 1 <= s.nbarcol && 0.0 < s.stend {
          BarFillsWidth(s.nbarcol - 1, s.ststrt, s.stcurr, s.stelap, s.stend);
        }
      }
      var rem := Remaining(s, wallt);
      assert 0.0 <= wallt ==> ParseHms(FormatHms(Some(wallt))) == Some(ToHms(wallt)) by {
        if 0.0 <= wallt { FormatHmsRoundTrip(wallt); }
      }
      assert rem.Some? ==> FormatHms(rem) != Placeholder by {
        if rem.Some? { assert Placeholder[7] == '-'; }
      }
      var frame := Frame(g, BarText(g), FormatHms(Some(wallt)), FormatHms(rem));
      Rendered(s.(lastWallt := wallt), Drawn(frame))
  }

  /** `ProgressBar(start, curr, end)`: no time elapsed, no redraw yet, then
      a first render. */
  function Init(start: real, curr: real, end: real, termCols: int, endWidth: nat, wallt: real): (r: Rendered)
    ensures r.state.ststrt == start && r.state.stcurr == curr && r.state.stend == end
    ensures r.state.stelap == 0.0
    ensures r.state.nbarcol == BarColumns(termCols, endWidth)
    ensures r.drawing.Skipped? <==> wallt < MinDelta && curr != end
    ensures r.drawing.Drawn? ==> r.drawing.frame.remaining == Placeholder
  {
    Render(State(start, 0.0, curr, end, BarColumns(termCols, endWidth), 0.0), wallt)
  }

  /** The result of `advance_to`: the new state, what was drawn, and whether
      a newline followed. */
  datatype Advanced = Advanced(state: State, drawing: Drawing, newline: bool)

  /** `advance_to(t)`: the current time becomes `min(t, stend)`, elapsed
      time is measured from the start, the bar is re-rendered, and a
      newline is written when the end is reached (unless rendering raised). */
  function AdvanceTo(s: State, t: real, wallt: real): (r: Advanced)
    ensures r.state.stcurr <= s.stend
    ensures r.state.stcurr == t || r.state.stcurr == s.stend
    ensures t <= s.stend ==> r.state.stcurr == t
    ensures r.state.stelap == r.state.stcurr - s.ststrt
    ensures r.state.ststrt == s.ststrt && r.state.stend == s.stend && r.state.nbarcol == s.nbarcol
    ensures r.newline <==> t >= s.stend && s.stend != 0.0
    ensures r.drawing.Skipped? <==> wallt - s.lastWallt < MinDelta && t < s.stend
  {
    var c := if t < s.stend then t else s.stend;
    var rendered := Render(s.(stelap := c - s.ststrt, stcurr := c), wallt);
    var raised := rendered.drawing.DivisionByZero?;
    Advanced(rendered.state, rendered.drawing, !raised && rendered.state.stcurr == rendered.state.stend)
  }

  /** Every `advance_to` leaves the bar in a progressing state, whatever
      state it started from. */
  lemma AdvanceProgresses(s: State, t: real, wallt: real)
    ensures Progressing(AdvanceTo(s, t, wallt).state)
  {
  }

  /** Reaching the end is always drawn, never throttled, and followed by a
      newline. */
  lemma EndIsAlwaysDrawn(s: State, t: real, wallt: real)
    requires s.stend != 0.0 && t >= s.stend
    ensures AdvanceTo(s, t, wallt).drawing.Drawn?
    ensures AdvanceTo(s, t, wallt).newline
  {
  }

  /** Each call that reaches the end writes its own newline: two calls past
      the end write two. */
  lemma NewlineOnEveryEndCall(s: State, t1: real, t2: real, w1: real, w2: real)
    requires s.stend != 0.0 && t1 >= s.stend && t2 >= s.stend
    ensures AdvanceTo(s, t1, w1).newline
    ensures AdvanceTo(AdvanceTo(s, t1, w1).state, t2, w2).newline
  {
  }

  /** For a bar whose start lies between zero and the current time and whose
      end is positive, no segment count is negative and the bar fills all
      `nbarcol` columns: `n` segment cells plus the `>` head. */
  lemma BarFillsWidth(n: int, ststrt: real, cu: real, el: real, en: real)
    requires 0 <= n && 0.0 < en
    requires 0.0 <= ststrt <= cu <= en && cu - el == ststrt
    ensures
      var g := BarSegments(n, cu, el, en);
      && 0 <= g.plus && 0 <= g.equals && 0 <= g.spaces
      && g.plus + g.equals + g.spaces == n
      && |BarText(g)| == n + 1
  {
    SegmentBounds(n, cu, el, en);
  }

  /** The `+` and space counts are non-negative and leave room for the `=`. */
  lemma SegmentBounds(n: int, cu: real, el: real, en: real)
    requires 0 <= n && 0.0 < en && 0.0 <= el <= cu <= en
    ensures
      var g := BarSegments(n, cu, el, en);
      0 <= g.plus && 0 <= g.spaces && g.plus + g.spaces <= n
  {
    SharesBounded(n, cu, el, en);
    TruncSum(PlusShare(n, cu, el, en), SpaceShare(n, cu, en), n);
  }

  /** The two real shares are non-negative and fit in the bar together. */
  lemma SharesBounded(n: int, cu: real, el: real, en: real)
    requires 0 <= n && 0.0 < en && 0.0 <= el && el <= cu <= en
    ensures 0.0 <= PlusShare(n, cu, el, en)
    ensures 0.0 <= SpaceShare(n, cu, en)
    ensures PlusShare(n, cu, el, en) + SpaceShare(n, cu, en) <= n as real
  {
  }

  /** Two non-negative shares that add up to at most `n` truncate to counts
      that add up to at most `n`. */
  lemma TruncSum(x: real, y: real, n: int)
    requires 0.0 <= x && 0.0 <= y && x + y <= n as real
    ensures 0 <= Trunc(x) && 0 <= Trunc(y) && Trunc(x) + Trunc(y) <= n
  {
  }

  /** Once advanced, a bar that started at a non-negative time before its
      positive end draws a full-width bar on every redraw of `advance_to`. */
  lemma AdvanceDrawsFullBar(s: State, t: real, wallt: real)
    requires 0.0 <= s.ststrt <= t && s.ststrt <= s.stend && 0.0 < s.stend
    requires 1 <= s.nbarcol
    ensures
      var r := AdvanceTo(s, t, wallt);
      r.drawing.Drawn? ==> |r.drawing.frame.bar| == s.nbarcol
  {
  }
}

=== FILE: results.dfy ===
/** Failure-carrying wrappers shared by the backend and progress-bar models. */
module Results {

  /** A value that may be absent: Python's `None` versus a real value. */
  datatype Option<+T> = None | Some(value: T)

  /** The outcome of an operation that either yields a value or raises. */
  datatype Result<+T, +E> = Ok(value: T) | Err(error: E)

  /** The outcome of a check that yields nothing on success (a Python
      function that only asserts). */
  datatype Outcome<+E> = Pass | Fail(error: E)
}
